=== FILE: README.md ===
# LoRA adaptation of a RoBERTa encoder — a Dafny model

This project models the exact, non-numeric logic of `lora_implementation_scratch.py`,
which adds Low-Rank Adaptation (LoRA) to a pretrained RoBERTa encoder:

- **Adapter algebra** (`Lora`, `Matrices`). `LoraRobertaSelfAttention.__init__`
  gives the query and value projections a pair of factors `B` (`d×r`, zeros)
  and `A` (`r×d`). `lora_query(x)` is `query(x) + F.linear(x, B·A)`, and
  `lora_value` has the same shape. Matrices are integer `seq<seq<int>>`. The
  model proves that a zero `B` makes the delta vanish exactly. It also proves
  that the adapted projection equals the base projection with `B·A` merged into
  its weight.
- **Forward control skeleton** (`Attention`). `forward` is modelled as a
  `Trace` of what its control flow decides:
  - which of the four branches runs;
  - where the key and value layers come from, and how the cache is
    concatenated;
  - which mask is applied;
  - the relative-position lookup indices;
  - the shape of the returned tuple.

  `BaseForward` is the inherited `RobertaSelfAttention.forward` run on the same
  module. The adapted forward is compared against it.
- **Module-tree replacement** (`ModuleTree`). A module is its class, its own
  parameter names and its named children. `Walk` is
  `replace_multihead_attention_recursion`:
  - every child passing the `isinstance` test is counted;
  - that child is checked against the new module's key set (ignoring names
    that start with `lora_`) and swapped;
  - every other child is walked recursively.

  The adapted class subclasses the base class, and the code has no
  already-adapted guard. So a second walk over an adapted tree aborts at the
  assertion. `SecondWalkFails` proves this.
- **Trainability policy** (`Freezing`). This is the loop of
  `freeze_parameters_except_lora_and_bias` with its substring tests, exactly as
  coded.
- **Construction** (`Wrapper`). `Wrap` is replacement followed by the policy,
  applied over the dotted names `named_parameters` reports. `WrapAsWritten` is
  the constructor as the file actually behaves (see Findings).

Three behaviours of the code that a reader might not expect:

- Replacement has no guard for modules that are already adapted.
  `ModuleTree.SecondWalkFails` shows that a second walk over an adapted tree
  aborts at the integrity assertion.
- The freezing loop uses substring tests, although the docstring at lines
  300-301 says adapter and head names "start with" their prefix.
  `Freezing.DocstringDisagrees` shows a nested adapter name on which the two
  readings differ.
- With a cache, the single query row of the relative-position table is
  `key_length - 1`. The indices then lie in `[max - 1, max + key_length - 2]`,
  not in the no-cache range `[max - key_length, max + query_length - 2]`.
  `Attention.RelativeIndexBounds` states both ranges, and
  `Attention.RelativeLookupInTable` says exactly when they fit the distance
  table.

## Model

| member | source | states |
|---|---|---|
| `Matrices.ZeroTimesAny` | lora_implementation_scratch.py:31-37 | a zero `B` times any `A` is the zero matrix, so the initial weight delta is exactly zero |
| `Matrices.LinearByZero` | lora_implementation_scratch.py:42-45 | `F.linear` by an all-zero weight yields an all-zero output for every input |
| `Matrices.LinearOfSum` | lora_implementation_scratch.py:42-45 | `F.linear` is linear in its weight: projecting by `W1 + W2` is the sum of the two projections |
| `Lora.InitAdapter` | lora_implementation_scratch.py:34-37 | a fresh adapter is `d×r`/`r×d`, keeps the given `A`, has an all-zero `B`, and its delta `B·A` is the `d×d` zero matrix |
| `Lora.NewLayer` | lora_implementation_scratch.py:27-37 | construction keeps the base module's state unchanged, adds two adapters of rank `r`, and both deltas are zero |
| `Lora.LoraQuery` | lora_implementation_scratch.py:39-45 | `lora_query(x)` is the query `nn.Linear` with weight `W + B·A` and the same bias; when `B` is zero it is `query(x)` |
| `Lora.LoraValue` | lora_implementation_scratch.py:47-53 | `lora_value(x)` is the value `nn.Linear` with weight `W + B·A` and the same bias; when `B` is zero it is `value(x)` |
| `Lora.LoraProjectZeroB` | lora_implementation_scratch.py:39-53 | whenever `B` is zero, `base(x) + F.linear(x, B·A)` equals `base(x)` for every `x` |
| `Lora.LoraProjectMerged` | lora_implementation_scratch.py:39-53 | the adapted projection equals the base projection whose weight is `W + B·A` and whose bias is unchanged |
| `Lora.FreshLayerIsBase` | lora_implementation_scratch.py:27-53 | on a freshly built layer, `lora_query(x) == query(x)` and `lora_value(x) == value(x)` for every input |
| `Attention.Forward` | lora_implementation_scratch.py:55-93 | the query is always `lora_query(hidden)`; each of the four key/value branches is taken exactly under its input condition; a cross-attention cache is reused verbatim; fresh cross-attention uses the unadapted `key` and `lora_value` of the encoder states; self-attention appends `key`/`lora_value` of the hidden states to the cache when there is one |
| `Attention.RelativeIndices` | lora_implementation_scratch.py:115-131 | the lookup table has one row with a cache and `query_length` rows without; every row has `key_length` entries |
| `Attention.RelativeIndexBounds` | lora_implementation_scratch.py:115-131 | each index is `l - r + max - 1`; it lies in `[max-K, max+Q-2]` without a cache and in `[max-1, max+K-2]` with one; it lies in `[0, 2max-2]` when both lengths are at most `max` |
| `Attention.RelativeLookupInTable` | lora_implementation_scratch.py:115-131 | for non-empty lengths, every index fits the `2max-1` rows of the distance table iff `key_length <= max` and, without a cache, also `query_length <= max` |
| `Attention.CachedCrossIgnoresEncoder` | lora_implementation_scratch.py:75-79 | with a cache, any encoder tensor of any width is accepted, and the forward result is the same whichever one is passed |
| `Attention.CacheConcatenation` | lora_implementation_scratch.py:86-90 | with a self-attention cache, the past rows come first and the new rows after; key and value lengths are the past length plus the current length |
| `Attention.MaskSubstitution` | lora_implementation_scratch.py:75-85 | the applied mask is the encoder mask in both cross-attention branches and the given attention mask in both self-attention branches |
| `Attention.OutputArity` | lora_implementation_scratch.py:176-182 | the tuple has `1 + [output_attentions] + [is_decoder]` elements; the context comes first, the probabilities appear iff requested, and the new `(key, value)` cache comes last iff decoder |
| `Attention.OnlyQueryAndValueAdapted` | lora_implementation_scratch.py:65-93 | against the inherited forward: same branch, same key layer, same mask, same relative indices and same output tuple shape; only query and value may differ |
| `Attention.FreshForwardIsBase` | lora_implementation_scratch.py:27-106 | a freshly constructed adapted layer's forward equals the inherited forward on every input |
| `ModuleTree.ParamList` | lora_implementation_scratch.py:303 | `named_parameters` lists the module's own parameters first, then every child's own parameter under `child_name.param` |
| `ModuleTree.AdaptedModule` | lora_implementation_scratch.py:27-37 | the new module is a `LoraRobertaSelfAttention` that keeps the base template's submodules and own parameters, in order, and adds the four adapter matrices; every parameter it adds starts with `lora_` |
| `ModuleTree.Passes` | lora_implementation_scratch.py:282-288 | a module that passes has no `lora_`-prefixed key; when the template has none, a module passes iff its key set equals the template's |
| `ModuleTree.Walk` | lora_implementation_scratch.py:262-295 | the walk keeps the number and names of children; the counter never decreases; a failed check reports two different key sets |
| `ModuleTree.WalkKeepsPlaces` | lora_implementation_scratch.py:262-295 | a non-attention child keeps its class and parameters, and only its children may change; an attention child is left as it was or swapped for the new module |
| `ModuleTree.Replace` | lora_implementation_scratch.py:243-244 | the root module is never itself replaced; only its children are rewritten |
| `ModuleTree.WithoutAdapters` | lora_implementation_scratch.py:283-285 | the filtered key set is exactly the keys that do not start with `lora_` |
| `ModuleTree.WalkSucceedsIff` | lora_implementation_scratch.py:281-288 | the walk finishes without an assertion failure iff every attention module it reaches passes the key-set check |
| `ModuleTree.WalkCompleted` | lora_implementation_scratch.py:264-291 | a finished walk adds one to the counter per attention module reached, not descending into them; every such module becomes the new adapted module |
| `ModuleTree.AdaptedLeavesNoPlain` | lora_implementation_scratch.py:264-291 | when the base template has no self-attention child: after every reached target is adapted, no unadapted self-attention remains on the walk's path |
| `ModuleTree.PassesIff` | lora_implementation_scratch.py:282-288 | when the base template has no `lora_` key, the check passes iff the old module's key set equals the template's |
| `ModuleTree.AdaptedModuleFails` | lora_implementation_scratch.py:264-288 | any module holding a `lora_`-prefixed key fails the check, including an already adapted module that still matches `isinstance` |
| `ModuleTree.SecondWalkFails` | lora_implementation_scratch.py:264-288 | a finished walk that replaced at least one module leaves a tree on which a second walk aborts |
| `ModuleTree.At` | lora_implementation_scratch.py:303 | a reachable module's parameter prefix starts with the first child's name and a dot |
| `ModuleTree.ReachableParamsListed` | lora_implementation_scratch.py:303 | every parameter of a reachable module appears in `named_parameters` under its dotted path |
| `Freezing.Trainable` | lora_implementation_scratch.py:304-310 | adapter and head names are trainable under every flag setting; whatever the docstring's starts-with reading trains, the code trains too; a trainable name contains one of the five tested substrings |
| `Freezing.FreezeParameters` | lora_implementation_scratch.py:303-313 | the loop visits every parameter in order; it sets `requires_grad` to the policy's verdict and leaves names untouched |
| `Freezing.AdapterAlwaysTrainable` | lora_implementation_scratch.py:305 | a name containing `lora_` is trainable under every flag setting |
| `Freezing.HeadAlwaysTrainable` | lora_implementation_scratch.py:306 | a name containing `finetune_head_` is trainable under every flag setting |
| `Freezing.TrainableMonotone` | lora_implementation_scratch.py:304-310 | turning any flag on never freezes a parameter |
| `Freezing.FreezeIdempotent` | lora_implementation_scratch.py:303-313 | re-running the policy changes nothing; the result does not depend on prior `requires_grad` values |
| `Freezing.QualifiedAdapterName` | lora_implementation_scratch.py:298-305 | an adapter name below a submodule path is trainable, yet its full name does not start with `lora_` |
| `Freezing.DocstringDisagrees` | lora_implementation_scratch.py:298-305 | with all flags off, the substring policy trains `encoder.layer.0.attention.self.lora_query_matrix_A`; the docstring's starts-with reading would freeze it |
| `Freezing.PolicyMatrix` | lora_implementation_scratch.py:303-313 | for every flag combination: an adapter matrix and a task-head weight are trainable; a bias, an embedding and a LayerNorm weight follow their flags; a dense weight is frozen |
| `Wrapper.Wrap` | lora_implementation_scratch.py:218-232 | a failed construction is the integrity assertion; on success, the parameter list holds exactly the adapted model's dotted names, in order, and each one's `requires_grad` is the freezing policy's verdict on its name |
| `Wrapper.WrapSucceedsIff` | lora_implementation_scratch.py:231-232 | construction succeeds iff every reached attention module passes the integrity check |
| `Wrapper.WrapReplacesAll` | lora_implementation_scratch.py:243-295 | a constructed wrapper's counter equals the number of attention modules reached; all of them are adapted; when the base template has no self-attention child, no unadapted one is left on the walk's path |
| `Wrapper.WrappedAdaptersTrainable` | lora_implementation_scratch.py:303-311 | every adapter matrix anywhere in a constructed wrapper is listed under its dotted name as trainable; when the first child's name does not start with `lora_`, that dotted name does not start with `lora_` either |
| `Wrapper.WrapAsWritten` | lora_implementation_scratch.py:315-343 | as written, construction always raises: at the assertion, or with `UnboundLocalError` exactly when replacement succeeded |
| `Wrapper.WrapAsWrittenNeverSucceeds` | lora_implementation_scratch.py:231-343 | for every model, as-written construction is an error; when every check passes, the error is `UnboundLocalError` on `lora_parameters` |

## Left out

- The numeric part of `forward` is not modelled (lines 109, 137-170). This
  covers the score matmul, the relative-position einsum terms, the scaling by
  `1/sqrt(head_size)`, the additive mask, softmax, dropout and the head-mask
  product. They are floating point and library-defined. The context and
  probabilities appear only as shapes.
- `transpose_for_scores` and the final permute/reshape (lines 172-174) are
  treated as identity. They only change the per-head layout. The batch axis is
  dropped: a tensor is one row per sequence position.
- All arithmetic is on unbounded integers, not floating point.
- The model uses one width `d`, equal to `all_head_size`, for both the input
  and the output of the projections. `F.linear(x, B·A)` already requires this.
- Malformed shapes are excluded by `LayerValid` and `InputsValid`. This
  includes a cache whose key and value lengths differ. Each excluded shape is
  one the source reads and the tensor library raises on; the model does not
  carry those errors. The encoder states are constrained only when no cache
  is given: with a cache, lines 75-79 reuse the cached key and value and never
  read them.
- Attention.RelativeIndices: an index outside the distance table makes the
  embedding lookup at lines 129-131 raise. The model returns the indices
  rather than an error value. `Attention.RelativeLookupInTable` states
  exactly when the lookup succeeds. The table itself (`2 * max - 1` rows) is
  built by the inherited `RobertaSelfAttention`, which is not part of this
  model.
- Wrapper.Wrap: the rank is a natural number. With a negative `lora_rank`,
  `torch.zeros(d, r)` at line 34 raises `RuntimeError` when line 268 builds
  the first new module, before any integrity check. The model has no such
  error.
- Wrapper.Wrap: assertions are taken to be enabled. Under `python -O` the
  bare `assert` at lines 286-288 is removed, and a mismatched module is
  swapped in silently. `Wrapper.WrapSucceedsIff` then no longer describes
  the run.
- `A` is drawn with `torch.randn`. In the model it is a parameter of
  construction.
- `RobertaModel.from_pretrained` and the configuration (lines 220-224) are not
  modelled. The loaded module tree and the base attention template are inputs,
  so a load failure does not appear.
- `state_dict` and `load_state_dict` (lines 273-279) appear only through key
  names. Parameter values are not transplanted.
- `load_state_dict(..., strict=False)` at line 276 still raises when a
  tensor's shape differs from the new module's. The model assumes the
  configuration the new module is built from matches the old module, so that
  error does not appear.
- `ModuleTree.Walk` on failure returns the children as rewritten up to that
  point. The counter reflects the increment made before the assertion.
- Shared submodules are not modelled. `named_children` and
  `named_parameters` de-duplicate them; trees here never share nodes.
- The `print` at line 246 has no counterpart.
- The loader body at lines 315-353 is not modelled as a working
  save/load round trip. Only the failure at line 331, the read of the
  unbound `lora_parameters`, is modelled (see Findings). Its later steps are path/dict dispatch, `torch.load`, the
  `ValueError` and the reconstruction from `model_id`/`lora_rank`. They are also
  unreachable as written, and they call a `load_state_dict` the helper class
  does not define.
- Any `position_embedding_type` other than the two relative kinds behaves as
  `Absolute`.

## Findings

| source | as written | input that shows it | evidently intended | confidence | as-written member | corrected member |
|---|---|---|---|---|---|---|
| lora_implementation_scratch.py:315-343 | after the freezing loop, `freeze_parameters_except_lora_and_bias` goes on into a stray loader body. Line 331 reads the local `lora_parameters`, which is assigned only at line 334, so it raises `UnboundLocalError`. The constructor therefore never returns | any construction whose integrity checks pass, e.g. `LoraWrapperRobertaHelper()` on a standard model | the method ends after the loop at line 313; the loader is a separate static method, as its docstring (lines 316-329) describes | high (not executed) | `Wrapper.WrapAsWritten`, with `Wrapper.WrapAsWrittenNeverSucceeds` | `Wrapper.Wrap`, with `Wrapper.WrapSucceedsIff` and `Wrapper.WrappedAdaptersTrainable` |

=== FILE: attention.dfy ===
/** The control skeleton of `LoraRobertaSelfAttention.forward`: which key and
    value layers are used, how the cache grows, which mask is applied, the
    relative-position lookup indices and the shape of the returned tuple.
    Scores, softmax, dropout and the head mask are numeric and not modelled. */
module Attention {
  import opened Optional
  import opened Matrices
  import opened Lora

  /** A cached (key layer, value layer) pair, one row per sequence position. */
  datatype KeyValue = KeyValue(key: Matrix, value: Matrix)

  /** The arguments of `forward`. */
  datatype Inputs = Inputs(
    hidden: Matrix,
    attentionMask: Option<Matrix>,
    headMask: Option<Matrix>,
    encoderHidden: Option<Matrix>,
    encoderMask: Option<Matrix>,
    past: Option<KeyValue>,
    outputAttentions: bool)

  /** The four ways `forward` obtains its key and value layers. */
  datatype Branch = CrossCached | CrossFresh | SelfCached | SelfFresh

  /** One element of the returned tuple: the context layer and the attention
      probabilities by shape, the cache by content. */
  datatype Output = Context(rows: nat, width: nat) | Probs(rows: nat, cols: nat) | Cache(kv: KeyValue)

  /** Everything the control flow of one forward call decides. */
  datatype Trace = Trace(
    branch: Branch,
    query: Matrix,
    kv: KeyValue,
    mask: Option<Matrix>,
    relative: Option<seq<seq<int>>>,
    relativeTerms: nat,
    outputs: seq<Output>)

  /** The inputs have the widths the projections and the cache expect. The
      encoder states are projected only when no cache is given, so only then
      is their width constrained. */
  predicate InputsValid(inp: Inputs, d: nat)
  {
    && Rows(inp.hidden, d)
    && (inp.encoderHidden.Some? && inp.past.None? ==> Rows(inp.encoderHidden.value, d))
    && (inp.past.Some? ==>
          && Rows(inp.past.value.key, d) && Rows(inp.past.value.value, d)
          && |inp.past.value.key| == |inp.past.value.value|)
  }

  /** The if/elif chain that picks the key/value source. */
  function BranchOf(inp: Inputs): Branch
  {
    if inp.encoderHidden.Some? && inp.past.Some? then CrossCached
    else if inp.encoderHidden.Some? then CrossFresh
    else if inp.past.Some? then SelfCached
    else SelfFresh
  }

  /** The query projection: adapted (`lora_query`) or the inherited `query`. */
  function QueryOf(l: Layer, x: Matrix, adapted: bool): (y: Matrix)
    requires LayerValid(l) && Rows(x, l.base.d)
    ensures IsMatrix(y, |x|, l.base.d)
  {
    if adapted then LoraQuery(l, x) else Project(l.base.query, x, l.base.d)
  }

  /** The value projection: adapted (`lora_value`) or the inherited `value`. */
  function ValueOf(l: Layer, x: Matrix, adapted: bool): (y: Matrix)
    requires LayerValid(l) && Rows(x, l.base.d)
    ensures IsMatrix(y, |x|, l.base.d)
  {
    if adapted then LoraValue(l, x) else Project(l.base.value, x, l.base.d)
  }

  /** The lookup indices `distance + max_position_embeddings - 1` into the
      distance embedding, one row per query position `l` and one column per key
      position `r`, where `distance = l - r`. With a cache the single query row
      is `l = key_length - 1`. */
  function RelativeIndices(queryLength: nat, keyLength: nat, useCache: bool, maxPositions: nat): (t: seq<seq<int>>)
    ensures |t| == (if useCache then 1 else queryLength)
    ensures forall i :: 0 <= i < |t| ==> |t[i]| == keyLength
  {
    var ls: seq<int> := if useCache then [keyLength - 1] else seq(queryLength, l => l);
    seq(|ls|, i requires 0 <= i < |ls| => seq(keyLength, r => ls[i] - r + maxPositions - 1))
  }

  /** How many relative-position score terms are added. */
  function RelativeTerms(p: PositionType): nat
  {
    match p
    case Absolute => 0
    case RelativeKey => 1
    case RelativeKeyQuery => 2
  }

  /** The forward skeleton shared by the adapted module and the base module it
      was copied from; `adapted` selects `lora_query`/`lora_value` or the
      inherited `query`/`value`. */
  function Run(l: Layer, inp: Inputs, adapted: bool): (t: Trace)
    requires LayerValid(l) && InputsValid(inp, l.base.d)
    ensures IsMatrix(t.query, |inp.hidden|, l.base.d)
  {
    var d := l.base.d;
    var branch := BranchOf(inp);
    var kv :=
      match branch
      case CrossCached => inp.past.value
      case CrossFresh =>
        KeyValue(Project(l.base.key, inp.encoderHidden.value, d), ValueOf(l, inp.encoderHidden.value, adapted))
      case SelfCached =>
        KeyValue(inp.past.value.key + Project(l.base.key, inp.hidden, d),
                 inp.past.value.value + ValueOf(l, inp.hidden, adapted))
      case SelfFresh =>
        KeyValue(Project(l.base.key, inp.hidden, d), ValueOf(l, inp.hidden, adapted));
    var mask := if inp.encoderHidden.Some? then inp.encoderMask else inp.attentionMask;
    var useCache := inp.past.Some?;
    var cfg := l.base.config;
    var relative :=
      if cfg.positionType == Absolute then None
      else Some(RelativeIndices(|inp.hidden|, |kv.key|, useCache, cfg.maxPositions));
    var context := [Context(|inp.hidden|, d)];
    var withProbs := if inp.outputAttentions then context + [Probs(|inp.hidden|, |kv.key|)] else context;
    var outputs := if cfg.isDecoder then withProbs + [Cache(kv)] else withProbs;
    Trace(branch, QueryOf(l, inp.hidden, adapted), kv, mask, relative, RelativeTerms(cfg.positionType), outputs)
  }

  /** `LoraRobertaSelfAttention.forward`. */
  function Forward(l: Layer, inp: Inputs): (t: Trace)
    requires LayerValid(l) && InputsValid(inp, l.base.d)
    ensures t.query == LoraQuery(l, inp.hidden)
    ensures t.branch == CrossCached <==> inp.encoderHidden.Some? && inp.past.Some?
    ensures t.branch == CrossFresh <==> inp.encoderHidden.Some? && inp.past.None?
    ensures t.branch == SelfCached <==> inp.encoderHidden.None? && inp.past.Some?
    ensures t.branch == SelfFresh <==> inp.encoderHidden.None? && inp.past.None?
    ensures t.branch == CrossCached ==> t.kv == inp.past.value
    ensures t.branch == CrossFresh ==>
      t.kv == KeyValue(Project(l.base.key, inp.encoderHidden.value, l.base.d), LoraValue(l, inp.encoderHidden.value))
    ensures t.branch == SelfCached ==>
      t.kv == KeyValue(inp.past.value.key + Project(l.base.key, inp.hidden, l.base.d),
                       inp.past.value.value + LoraValue(l, inp.hidden))
    ensures t.branch == SelfFresh ==>
      t.kv == KeyValue(Project(l.base.key, inp.hidden, l.base.d), LoraValue(l, inp.hidden))
  {
    Run(l, inp, true)
  }

  /** The inherited `RobertaSelfAttention.forward` run on the same module. */
  function BaseForward(l: Layer, inp: Inputs): Trace
    requires LayerValid(l) && InputsValid(inp, l.base.d)
  {
    Run(l, inp, false)
  }

  /** Cached cross-attention never reads the encoder states: any two encoder
      tensors, of any width, give the same forward trace. */
  lemma CachedCrossIgnoresEncoder(l: Layer, inp: Inputs, e1: Matrix, e2: Matrix)
    requires LayerValid(l) && InputsValid(inp, l.base.d) && inp.past.Some?
    ensures InputsValid(inp.(encoderHidden := Some(e1)), l.base.d)
    ensures Forward(l, inp.(encoderHidden := Some(e1))) == Forward(l, inp.(encoderHidden := Some(e2)))
  {
  }

  /** Incremental decoding: the cached positions come first, the new ones after,
      and the key and value sequences grow by exactly the current length. */
  lemma CacheConcatenation(l: Layer, inp: Inputs)
    requires LayerValid(l) && InputsValid(inp, l.base.d)
    requires inp.encoderHidden.None? && inp.past.Some?
    ensures var t := Forward(l, inp);
      var past := inp.past.value;
      && |t.kv.key| == |past.key| + |inp.hidden|
      && |t.kv.value| == |past.value| + |inp.hidden|
      && t.kv.key[..|past.key|] == past.key
      && t.kv.value[..|past.value|] == past.value
      && t.kv.key[|past.key|..] == Project(l.base.key, inp.hidden, l.base.d)
      && t.kv.value[|past.value|..] == LoraValue(l, inp.hidden)
  {
  }

  /** The attention mask is replaced by the encoder mask exactly in the two
      cross-attention branches. */
  lemma MaskSubstitution(l: Layer, inp: Inputs)
    requires LayerValid(l) && InputsValid(inp, l.base.d)
    ensures var t := Forward(l, inp);
      && (t.branch in {CrossCached, CrossFresh} ==> t.mask == inp.encoderMask)
      && (t.branch in {SelfCached, SelfFresh} ==> t.mask == inp.attentionMask)
  {
  }

  /** The returned tuple: the context first, the probabilities second iff
      requested, the new cache last iff the layer is a decoder. */
  lemma OutputArity(l: Layer, inp: Inputs)
    requires LayerValid(l) && InputsValid(inp, l.base.d)
    ensures var t := Forward(l, inp);
      && |t.outputs| == 1 + (if inp.outputAttentions then 1 else 0) + (if l.base.config.isDecoder then 1 else 0)
      && t.outputs[0] == Context(|inp.hidden|, l.base.d)
      && (inp.outputAttentions <==> exists i :: 0 <= i < |t.outputs| && t.outputs[i].Probs?)
      && (inp.outputAttentions ==> t.outputs[1] == Probs(|inp.hidden|, |t.kv.key|))
      && (l.base.config.isDecoder <==> exists i :: 0 <= i < |t.outputs| && t.outputs[i].Cache?)
      && (l.base.config.isDecoder ==> t.outputs[|t.outputs| - 1] == Cache(t.kv))
  {
    var t := Forward(l, inp);
    if inp.outputAttentions {
      assert t.outputs[1].Probs?;
    }
    if l.base.config.isDecoder {
      assert t.outputs[|t.outputs| - 1].Cache?;
    }
  }

  /** Every relative-position index is `l - r + max - 1` for its query row `l`
      and key column `r`. Without a cache the indices lie in
      `[max - key_length, max + query_length - 2]`; with a cache (one query row
      at `key_length - 1`) they lie in `[max - 1, max + key_length - 2]`. When
      both lengths are at most `max` every index is in `[0, 2·max - 2]`. */
  lemma {:induction false} RelativeIndexBounds(q: nat, k: nat, useCache: bool, max: nat)
    ensures var t := RelativeIndices(q, k, useCache, max);
      && (forall i, r :: 0 <= i < |t| && 0 <= r < k ==>
            t[i][r] == (if useCache then k - 1 else i) - r + max - 1)
      && (!useCache ==> forall i, r :: 0 <= i < |t| && 0 <= r < k ==> max - k <= t[i][r] <= max + q - 2)
      && (useCache ==> forall i, r :: 0 <= i < |t| && 0 <= r < k ==> max - 1 <= t[i][r] <= max + k - 2)
      && (q <= max && k <= max ==> forall i, r :: 0 <= i < |t| && 0 <= r < k ==> 0 <= t[i][r] <= 2 * max - 2)
  {
  }

  /** Every index names a row of the inherited distance table, which has
      `2 * max - 1` rows; an index outside it makes the lookup raise. */
  predicate InTable(t: seq<seq<int>>, max: nat)
  {
    forall i, r :: 0 <= i < |t| && 0 <= r < |t[i]| ==> 0 <= t[i][r] <= 2 * max - 2
  }

  /** When the distance lookup succeeds. Without a cache it needs both the
      query and the key length to be at most `max`; with a cache only the key
      length is bounded, the single query row being the last key position. */
  lemma {:induction false} RelativeLookupInTable(q: nat, k: nat, useCache: bool, max: nat)
    requires 0 < k && (useCache || 0 < q)
    ensures InTable(RelativeIndices(q, k, useCache, max), max) <==> k <= max && (useCache || q <= max)
  {
    var t := RelativeIndices(q, k, useCache, max);
    RelativeIndexBounds(q, k, useCache, max);
    if InTable(t, max) {
      assert 0 <= t[0][k - 1];
      if useCache {
        assert t[0][0] <= 2 * max - 2;
      } else {
        assert t[q - 1][0] <= 2 * max - 2;
      }
    }
  }

  /** The adapted forward differs from the inherited one only in the query and
      value layers: same branch, same key layer, same mask, same relative
      indices and the same output tuple shape. */
  lemma OnlyQueryAndValueAdapted(l: Layer, inp: Inputs)
    requires LayerValid(l) && InputsValid(inp, l.base.d)
    ensures var t := Forward(l, inp);
      var b := BaseForward(l, inp);
      && t.branch == b.branch
      && t.kv.key == b.kv.key
      && |t.kv.value| == |b.kv.value|
      && t.mask == b.mask
      && t.relative == b.relative
      && |t.outputs| == |b.outputs|
      && t.outputs[0] == b.outputs[0]
  {
  }

  /** Zero-init invariant for the whole forward pass: a freshly constructed
      adapted layer computes exactly what the base module computes. */
  lemma FreshForwardIsBase(base: Base, r: nat, aQuery: Matrix, aValue: Matrix, inp: Inputs)
    requires BaseValid(base) && IsMatrix(aQuery, r, base.d) && IsMatrix(aValue, r, base.d)
    requires InputsValid(inp, base.d)
    ensures Forward(NewLayer(base, r, aQuery, aValue), inp) == BaseForward(NewLayer(base, r, aQuery, aValue), inp)
  {
    FreshLayerIsBase(base, r, aQuery, aValue, inp.hidden);
    if inp.encoderHidden.Some? && inp.past.None? {
      FreshLayerIsBase(base, r, aQuery, aValue, inp.encoderHidden.value);
    }
  }
}

=== FILE: freezing.dfy ===
/** `freeze_parameters_except_lora_and_bias`: the per-parameter trainability
    policy and the loop that applies it to every named parameter. */
module Freezing {
  import opened Names

  /** The wrapper's three training-inclusion flags. */
  datatype Flags = Flags(trainBiases: bool, trainEmbeddings: bool, trainLayerNorms: bool)

  /** A named parameter and its `requires_grad` flag. */
  datatype Param = Param(name: string, requiresGrad: bool)

  /** The policy as the code states it, with substring tests throughout. */
  function Trainable(flags: Flags, name: string): (t: bool)
    ensures Contains(name, LoraPrefix) || Contains(name, FinetuneHeadPrefix) ==> t
    ensures DocstringTrainable(flags, name) ==> t
    ensures t ==> || Contains(name, LoraPrefix) || Contains(name, FinetuneHeadPrefix)
                  || Contains(name, "bias") || Contains(name, "embeddings") || Contains(name, "LayerNorm")
  {
    PrefixesContained(name);
    || Contains(name, LoraPrefix)
    || Contains(name, FinetuneHeadPrefix)
    || (flags.trainBiases && Contains(name, "bias"))
    || (flags.trainEmbeddings && Contains(name, "embeddings"))
    || (flags.trainLayerNorms && Contains(name, "LayerNorm"))
  }

  /** A name that starts with a prefix contains it. */
  lemma PrefixesContained(name: string)
    ensures StartsWith(name, LoraPrefix) ==> Contains(name, LoraPrefix)
    ensures StartsWith(name, FinetuneHeadPrefix) ==> Contains(name, FinetuneHeadPrefix)
  {
    if StartsWith(name, LoraPrefix) {
      StartsWithContains(name, LoraPrefix);
    }
    if StartsWith(name, FinetuneHeadPrefix) {
      StartsWithContains(name, FinetuneHeadPrefix);
    }
  }

  /** The policy as the method's docstring describes it: adapter and head
      parameters identified by a name that starts with their prefix. */
  predicate DocstringTrainable(flags: Flags, name: string)
  {
    || StartsWith(name, LoraPrefix)
    || StartsWith(name, FinetuneHeadPrefix)
    || (flags.trainBiases && Contains(name, "bias"))
    || (flags.trainEmbeddings && Contains(name, "embeddings"))
    || (flags.trainLayerNorms && Contains(name, "LayerNorm"))
  }

  /** The parameters after the policy has been applied to each of them. */
  function Frozen(flags: Flags, params: seq<Param>): (out: seq<Param>)
    ensures |out| == |params|
  {
    seq(|params|, i requires 0 <= i < |params| => Param(params[i].name, Trainable(flags, params[i].name)))
  }

  /** The loop over `named_parameters()`: every parameter, in order, gets
      `requires_grad` set from the policy; names are untouched. */
  method FreezeParameters(flags: Flags, params: seq<Param>) returns (out: seq<Param>)
    ensures |out| == |params|
    ensures forall i :: 0 <= i < |params| ==>
      out[i].name == params[i].name && (out[i].requiresGrad <==> Trainable(flags, params[i].name))
    ensures out == Frozen(flags, params)
  {
    out := [];
    var i := 0;
    while i < |params|
      invariant 0 <= i <= |params|
      invariant |out| == i
      invariant forall j :: 0 <= j < i ==> out[j] == Param(params[j].name, Trainable(flags, params[j].name))
    {
      var p := params[i];
      if
        || Contains(p.name, LoraPrefix)
        || Contains(p.name, FinetuneHeadPrefix)
        || (flags.trainBiases && Contains(p.name, "bias"))
        || (flags.trainEmbeddings && Contains(p.name, "embeddings"))
        || (flags.trainLayerNorms && Contains(p.name, "LayerNorm"))
      {
        out := out + [Param(p.name, true)];
      } else {
        out := out + [Param(p.name, false)];
      }
      i := i + 1;
    }
  }

  /** Flags `f` enable no more than flags `g`. */
  predicate FlagsLeq(f: Flags, g: Flags)
  {
    (f.trainBiases ==> g.trainBiases)
    && (f.trainEmbeddings ==> g.trainEmbeddings)
    && (f.trainLayerNorms ==> g.trainLayerNorms)
  }

  /** Adapter parameters are trainable under every flag setting. */
  lemma AdapterAlwaysTrainable(flags: Flags, name: string)
    requires Contains(name, LoraPrefix)
    ensures Trainable(flags, name)
  {
  }

  /** Turning a flag on never freezes a parameter. */
  lemma TrainableMonotone(f: Flags, g: Flags, name: string)
    requires FlagsLeq(f, g)
    ensures Trainable(f, name) ==> Trainable(g, name)
  {
  }

  /** Re-running the policy gives the same flags, and the result never depends
      on the `requires_grad` values the parameters had before. */
  lemma FreezeIdempotent(flags: Flags, params: seq<Param>, other: seq<Param>)
    requires |other| == |params|
    requires forall i :: 0 <= i < |params| ==> other[i].name == params[i].name
    ensures Frozen(flags, Frozen(flags, params)) == Frozen(flags, params)
    ensures Frozen(flags, other) == Frozen(flags, params)
  {
  }

  /** An adapter parameter named below a submodule path `c` (which does not
      itself start with "lora_") is trainable under the code's substring test,
      but its full name does not start with "lora_", so the docstring's
      starts-with reading would not single it out. */
  lemma QualifiedAdapterName(flags: Flags, c: string, k: string)
    requires StartsWith(k, LoraPrefix) && !StartsWith(c, LoraPrefix)
    ensures Trainable(flags, c + "." + k)
    ensures !StartsWith(c + "." + k, LoraPrefix)
  {
    StartsWithContains(k, LoraPrefix);
    ContainsUnderPrefix(c + ".", k, LoraPrefix);
    QualifiedStartsWithLora(c, k);
  }

  /** The docstring reading freezes a nested adapter parameter that the code
      trains, when no flag is set. */
  lemma DocstringDisagrees()
    ensures Trainable(Flags(false, false, false), "encoder.layer.0.attention.self.lora_query_matrix_A")
    ensures !DocstringTrainable(Flags(false, false, false), "encoder.layer.0.attention.self.lora_query_matrix_A")
  {
    var c := "encoder.layer.0.attention.self";
    var n := c + "." + "lora_query_matrix_A";
    assert c[..|LoraPrefix|][0] != LoraPrefix[0];
    QualifiedAdapterName(Flags(false, false, false), c, "lora_query_matrix_A");
    assert n[0] != FinetuneHeadPrefix[0];
    assert n == "encoder.layer.0.attention.self.lora_query_matrix_A";
  }

  /** Representative parameter names of the model. */
  const AdapterPath: string := "encoder.layer.0.attention.self"
  const AdapterParam: string := AdapterPath + "." + "lora_value_matrix_B"
  const HeadParam: string := "finetune_head_classifier.weight"
  const BiasParam: string := "encoder.layer.0.attention.self.query.bias"
  const EmbeddingParam: string := "embeddings.word_embeddings.weight"
  const LayerNormParam: string := "encoder.layer.0.output.LayerNorm.weight"
  const DenseParam: string := "encoder.layer.0.output.dense.weight"

  /** The policy on representative names: an adapter matrix and a task-head
      weight are always trainable; a bias, an embedding table and a layer norm
      follow their flags; a plain dense weight is always frozen. */
  lemma PolicyMatrix(flags: Flags)
    ensures Trainable(flags, AdapterParam)
    ensures Trainable(flags, HeadParam)
    ensures Trainable(flags, BiasParam) <==> flags.trainBiases
    ensures Trainable(flags, EmbeddingParam) <==> flags.trainEmbeddings
    ensures Trainable(flags, LayerNormParam) <==> flags.trainLayerNorms
    ensures !Trainable(flags, DenseParam)
  {
    AdapterName(flags);
    HeadName(flags);
    BiasName(flags);
    EmbeddingName(flags);
    LayerNormName(flags);
    DenseName(flags);
  }

  /** Head parameters are trainable under every flag setting. */
  lemma HeadAlwaysTrainable(flags: Flags, name: string)
    requires Contains(name, FinetuneHeadPrefix)
    ensures Trainable(flags, name)
  {
  }

  lemma AdapterName(flags: Flags)
    ensures Trainable(flags, AdapterParam)
  {
    assert AdapterPath[..|LoraPrefix|][0] != LoraPrefix[0];
    QualifiedAdapterName(flags, AdapterPath, "lora_value_matrix_B");
  }

  lemma HeadName(flags: Flags)
    ensures Trainable(flags, HeadParam)
  {
    assert OccursAt(HeadParam, FinetuneHeadPrefix, 0);
  }

  lemma BiasName(flags: Flags)
    ensures Trainable(flags, BiasParam) <==> flags.trainBiases
  {
    assert OccursAt(BiasParam, "bias", |BiasParam| - 4);
    BiasParamLacks(LoraPrefix[4]);
    MissingCharNotContained(BiasParam, LoraPrefix, 4);
    BiasParamLacks(FinetuneHeadPrefix[9]);
    MissingCharNotContained(BiasParam, FinetuneHeadPrefix, 9);
    BiasParamLacks("embeddings"[1]);
    MissingCharNotContained(BiasParam, "embeddings", 1);
    BiasParamLacks("LayerNorm"[0]);
    MissingCharNotContained(BiasParam, "LayerNorm", 0);
  }

  lemma BiasParamLacks(ch: char)
    requires ch in "_hmL"
    ensures forall i :: 0 <= i < |BiasParam| ==> BiasParam[i] != ch
  {
    forall i | 0 <= i < |BiasParam|
      ensures BiasParam[i] != ch
    {
      // Case split into short index ranges, so the solver checks the literal a chunk at a time.
      if i < 8 {} else if i < 16 {} else if i < 24 {} else if i < 32 {} else {}
    }
  }

  lemma EmbeddingName(flags: Flags)
    ensures Trainable(flags, EmbeddingParam) <==> flags.trainEmbeddings
  {
    assert OccursAt(EmbeddingParam, "embeddings", 0);
    EmbeddingParamLacks(LoraPrefix[0]);
    MissingCharNotContained(EmbeddingParam, LoraPrefix, 0);
    EmbeddingParamLacks(FinetuneHeadPrefix[0]);
    MissingCharNotContained(EmbeddingParam, FinetuneHeadPrefix, 0);
    EmbeddingParamLacks("bias"[2]);
    MissingCharNotContained(EmbeddingParam, "bias", 2);
    EmbeddingParamLacks("LayerNorm"[0]);
    MissingCharNotContained(EmbeddingParam, "LayerNorm", 0);
  }

  lemma EmbeddingParamLacks(ch: char)
    requires ch in "lfaL"
    ensures forall i :: 0 <= i < |EmbeddingParam| ==> EmbeddingParam[i] != ch
  {
    forall i | 0 <= i < |EmbeddingParam|
      ensures EmbeddingParam[i] != ch
    {
      // Case split into short index ranges, so the solver checks the literal a chunk at a time.
      if i < 8 {} else if i < 16 {} else if i < 24 {} else {}
    }
  }

  lemma LayerNormName(flags: Flags)
    ensures Trainable(flags, LayerNormParam) <==> flags.trainLayerNorms
  {
    assert OccursAt(LayerNormParam, "LayerNorm", 23);
    LayerNormParamLacks(LoraPrefix[4]);
    MissingCharNotContained(LayerNormParam, LoraPrefix, 4);
    LayerNormParamLacks(FinetuneHeadPrefix[8]);
    MissingCharNotContained(LayerNormParam, FinetuneHeadPrefix, 8);
    LayerNormParamLacks("bias"[0]);
    MissingCharNotContained(LayerNormParam, "bias", 0);
    LayerNormParamLacks("embeddings"[2]);
    MissingCharNotContained(LayerNormParam, "embeddings", 2);
  }

  lemma LayerNormParamLacks(ch: char)
    requires ch in "_b"
    ensures forall i :: 0 <= i < |LayerNormParam| ==> LayerNormParam[i] != ch
  {
    forall i | 0 <= i < |LayerNormParam|
      ensures LayerNormParam[i] != ch
    {
      // Case split into short index ranges, so the solver checks the literal a chunk at a time.
      if i < 8 {} else if i < 16 {} else if i < 24 {} else if i < 32 {} else {}
    }
  }

  lemma DenseName(flags: Flags)
    ensures !Trainable(flags, DenseParam)
  {
    DenseParamLacks(LoraPrefix[4]);
    MissingCharNotContained(DenseParam, LoraPrefix, 4);
    DenseParamLacks(FinetuneHeadPrefix[8]);
    MissingCharNotContained(DenseParam, FinetuneHeadPrefix, 8);
    DenseParamLacks("bias"[0]);
    MissingCharNotContained(DenseParam, "bias", 0);
    DenseParamLacks("embeddings"[1]);
    MissingCharNotContained(DenseParam, "embeddings", 1);
    DenseParamLacks("LayerNorm"[0]);
    MissingCharNotContained(DenseParam, "LayerNorm", 0);
  }

  lemma DenseParamLacks(ch: char)
    requires ch in "_bmL"
    ensures forall i :: 0 <= i < |DenseParam| ==> DenseParam[i] != ch
  {
    forall i | 0 <= i < |DenseParam|
      ensures DenseParam[i] != ch
    {
      // Case split into short index ranges, so the solver checks the literal a chunk at a time.
      if i < 8 {} else if i < 16 {} else if i < 24 {} else if i < 32 {} else {}
    }
  }
}

=== FILE: lora.dfy ===
/** The adapted self-attention layer's weights: the inherited base projections
    and the two low-rank adapters added to the query and value projections. */
module Lora {
  import opened Matrices

  /** `position_embedding_type` of the model configuration. Any value other
      than the two relative kinds behaves like absolute position embeddings. */
  datatype PositionType = Absolute | RelativeKey | RelativeKeyQuery

  /** The parts of the configuration the attention forward pass consults. */
  datatype Config = Config(isDecoder: bool, positionType: PositionType, maxPositions: nat)

  /** An `nn.Linear` with bias: `y = x·weightᵀ + bias`. */
  datatype Dense = Dense(weight: Matrix, bias: Vector)

  /** A pair of low-rank factors: `b` is `d×r`, `a` is `r×d`. */
  datatype Adapter = Adapter(b: Matrix, a: Matrix)

  /** The state a base self-attention module owns: the hidden width `d`
      (`all_head_size`), its three projections and its configuration. */
  datatype Base = Base(d: nat, query: Dense, key: Dense, value: Dense, config: Config)

  /** The adapted module: everything of `Base` (inherited, not duplicated) plus
      the query and value adapters of rank `rank`. */
  datatype Layer = Layer(base: Base, rank: nat, loraQuery: Adapter, loraValue: Adapter)

  predicate DenseShaped(p: Dense, d: nat)
  {
    IsMatrix(p.weight, d, d) && |p.bias| == d
  }

  predicate AdapterShaped(ad: Adapter, d: nat, r: nat)
  {
    IsMatrix(ad.b, d, r) && IsMatrix(ad.a, r, d)
  }

  predicate BaseValid(b: Base)
  {
    DenseShaped(b.query, b.d) && DenseShaped(b.key, b.d) && DenseShaped(b.value, b.d)
  }

  predicate LayerValid(l: Layer)
  {
    && BaseValid(l.base)
    && AdapterShaped(l.loraQuery, l.base.d, l.rank)
    && AdapterShaped(l.loraValue, l.base.d, l.rank)
  }

  /** A matrix of `d`-wide rows, one row per sequence position. */
  predicate Rows(x: Matrix, d: nat)
  {
    IsMatrix(x, |x|, d)
  }

  /** Applying an `nn.Linear` to every position of `x`. */
  function Project(p: Dense, x: Matrix, d: nat): (y: Matrix)
    requires DenseShaped(p, d) && Rows(x, d)
    ensures IsMatrix(y, |x|, d)
  {
    var lin := Linear(x, p.weight, d, d);
    seq(|x|, t requires 0 <= t < |x| => seq(d, o requires 0 <= o < d => lin[t][o] + p.bias[o]))
  }

  /** The full-rank weight delta `torch.matmul(B, A)`, recomputed on every call. */
  function Delta(ad: Adapter, d: nat, r: nat): (w: Matrix)
    requires AdapterShaped(ad, d, r)
    ensures IsMatrix(w, d, d)
  {
    MatMul(ad.b, ad.a, d, r, d)
  }

  /** A freshly allocated adapter: `B = zeros(d, r)` and `A` the given (in the
      source, Gaussian random) `r×d` matrix. Its delta is exactly zero. */
  function InitAdapter(d: nat, r: nat, a: Matrix): (ad: Adapter)
    requires IsMatrix(a, r, d)
    ensures AdapterShaped(ad, d, r) && ad.a == a
    ensures AllZero(ad.b)
    ensures Delta(ad, d, r) == Zero(d, d)
  {
    ZeroTimesAny(Zero(d, r), a, d, r, d);
    Adapter(Zero(d, r), a)
  }

  /** `base(x) + F.linear(x, B·A)`: the shared shape of `lora_query` and `lora_value`. */
  function LoraProject(p: Dense, ad: Adapter, x: Matrix, d: nat, r: nat): (y: Matrix)
    requires DenseShaped(p, d) && AdapterShaped(ad, d, r) && Rows(x, d)
    ensures IsMatrix(y, |x|, d)
  {
    Add(Project(p, x, d), Linear(x, Delta(ad, d, r), d, d), |x|, d)
  }

  /** An adapter whose `B` is zero leaves its projection exactly as it was. */
  lemma LoraProjectZeroB(p: Dense, ad: Adapter, x: Matrix, d: nat, r: nat)
    requires DenseShaped(p, d) && AdapterShaped(ad, d, r) && Rows(x, d)
    requires AllZero(ad.b)
    ensures LoraProject(p, ad, x, d, r) == Project(p, x, d)
  {
    ZeroTimesAny(ad.b, ad.a, d, r, d);
    LinearByZero(x, d, d);
    AddZero(Project(p, x, d), |x|, d);
  }

  /** The adapted projection is the base projection with the delta merged into
      its weight: `x·Wᵀ + b + x·(B·A)ᵀ = x·(W + B·A)ᵀ + b`. */
  lemma LoraProjectMerged(p: Dense, ad: Adapter, x: Matrix, d: nat, r: nat)
    requires DenseShaped(p, d) && AdapterShaped(ad, d, r) && Rows(x, d)
    ensures LoraProject(p, ad, x, d, r)
         == Project(Dense(Add(p.weight, Delta(ad, d, r), d, d), p.bias), x, d)
  {
    var delta := Delta(ad, d, r);
    var merged := Dense(Add(p.weight, delta, d, d), p.bias);
    var lhs := LoraProject(p, ad, x, d, r);
    var rhs := Project(merged, x, d);
    forall t | 0 <= t < |x|
      ensures lhs[t] == rhs[t]
    {
      forall o | 0 <= o < d
        ensures lhs[t][o] == rhs[t][o]
      {
        DotAddRight(x[t], p.weight[o], delta[o], merged.weight[o]);
      }
    }
  }

  /** `LoraRobertaSelfAttention.__init__`: keep the base module's state and add
      two adapters of rank `r` whose `B` factors are zero. */
  function NewLayer(base: Base, r: nat, aQuery: Matrix, aValue: Matrix): (l: Layer)
    requires BaseValid(base) && IsMatrix(aQuery, r, base.d) && IsMatrix(aValue, r, base.d)
    ensures LayerValid(l) && l.base == base && l.rank == r
    ensures l.loraQuery.a == aQuery && l.loraValue.a == aValue
    ensures Delta(l.loraQuery, base.d, r) == Zero(base.d, base.d)
    ensures Delta(l.loraValue, base.d, r) == Zero(base.d, base.d)
  {
    Layer(base, r, InitAdapter(base.d, r, aQuery), InitAdapter(base.d, r, aValue))
  }

  /** `lora_query`. */
  function LoraQuery(l: Layer, x: Matrix): (y: Matrix)
    requires LayerValid(l) && Rows(x, l.base.d)
    ensures IsMatrix(y, |x|, l.base.d)
    ensures y == Project(Dense(Add(l.base.query.weight, Delta(l.loraQuery, l.base.d, l.rank), l.base.d, l.base.d),
                               l.base.query.bias), x, l.base.d)
    ensures AllZero(l.loraQuery.b) ==> y == Project(l.base.query, x, l.base.d)
  {
    LoraProjectMerged(l.base.query, l.loraQuery, x, l.base.d, l.rank);
    if AllZero(l.loraQuery.b) then
      LoraProjectZeroB(l.base.query, l.loraQuery, x, l.base.d, l.rank);
      LoraProject(l.base.query, l.loraQuery, x, l.base.d, l.rank)
    else
      LoraProject(l.base.query, l.loraQuery, x, l.base.d, l.rank)
  }

  /** `lora_value`. */
  function LoraValue(l: Layer, x: Matrix): (y: Matrix)
    requires LayerValid(l) && Rows(x, l.base.d)
    ensures IsMatrix(y, |x|, l.base.d)
    ensures y == Project(Dense(Add(l.base.value.weight, Delta(l.loraValue, l.base.d, l.rank), l.base.d, l.base.d),
                               l.base.value.bias), x, l.base.d)
    ensures AllZero(l.loraValue.b) ==> y == Project(l.base.value, x, l.base.d)
  {
    LoraProjectMerged(l.base.value, l.loraValue, x, l.base.d, l.rank);
    if AllZero(l.loraValue.b) then
      LoraProjectZeroB(l.base.value, l.loraValue, x, l.base.d, l.rank);
      LoraProject(l.base.value, l.loraValue, x, l.base.d, l.rank)
    else
      LoraProject(l.base.value, l.loraValue, x, l.base.d, l.rank)
  }

  /** Zero-init invariant: a freshly constructed layer's adapted query and value
      projections equal the base module's, for every input. */
  lemma FreshLayerIsBase(base: Base, r: nat, aQuery: Matrix, aValue: Matrix, x: Matrix)
    requires BaseValid(base) && IsMatrix(aQuery, r, base.d) && IsMatrix(aValue, r, base.d)
    requires Rows(x, base.d)
    ensures LoraQuery(NewLayer(base, r, aQuery, aValue), x) == Project(base.query, x, base.d)
    ensures LoraValue(NewLayer(base, r, aQuery, aValue), x) == Project(base.value, x, base.d)
  {
    var l := NewLayer(base, r, aQuery, aValue);
    LoraProjectZeroB(base.query, l.loraQuery, x, base.d, r);
    LoraProjectZeroB(base.value, l.loraValue, x, base.d, r);
  }
}

=== FILE: matrices.dfy ===
/** Integer matrices as sequences of rows: the exact algebra behind the LoRA
    weight delta `B·A` and the projection `F.linear(x, W) = x·Wᵀ`. */
module Matrices {

  type Vector = seq<int>
  type Matrix = seq<Vector>

  /** `m` has `rows` rows of `cols` entries each. */
  predicate IsMatrix(m: Matrix, rows: nat, cols: nat)
  {
    |m| == rows && forall i :: 0 <= i < rows ==> |m[i]| == cols
  }

  /** Every entry of `m` is zero (the shape is whatever `m` has). */
  predicate AllZero(m: Matrix)
  {
    forall i, j :: 0 <= i < |m| && 0 <= j < |m[i]| ==> m[i][j] == 0
  }

  /** `torch.zeros(rows, cols)`. */
  function Zero(rows: nat, cols: nat): (z: Matrix)
    ensures IsMatrix(z, rows, cols) && AllZero(z)
  {
    seq(rows, _ => seq(cols, _ => 0))
  }

  /** Inner product of two vectors of equal length. */
  function Dot(u: Vector, v: Vector): int
    requires |u| == |v|
    decreases |u|
  {
    if |u| == 0 then 0 else u[0] * v[0] + Dot(u[1..], v[1..])
  }

  /** Column `j` of a matrix with `k` rows. */
  function Column(b: Matrix, j: nat, k: nat): (col: Vector)
    requires |b| == k && forall t :: 0 <= t < k ==> j < |b[t]|
    ensures |col| == k && forall t :: 0 <= t < k ==> col[t] == b[t][j]
  {
    seq(k, t requires 0 <= t < k => b[t][j])
  }

  /** `torch.matmul(a, b)` for an `n×k` matrix `a` and a `k×m` matrix `b`. */
  function MatMul(a: Matrix, b: Matrix, n: nat, k: nat, m: nat): (c: Matrix)
    requires IsMatrix(a, n, k) && IsMatrix(b, k, m)
    ensures IsMatrix(c, n, m)
  {
    seq(n, i requires 0 <= i < n => seq(m, j requires 0 <= j < m => Dot(a[i], Column(b, j, k))))
  }

  /** Entrywise sum of two matrices of one shape. */
  function Add(a: Matrix, b: Matrix, rows: nat, cols: nat): (c: Matrix)
    requires IsMatrix(a, rows, cols) && IsMatrix(b, rows, cols)
    ensures IsMatrix(c, rows, cols)
  {
    seq(rows, i requires 0 <= i < rows => seq(cols, j requires 0 <= j < cols => a[i][j] + b[i][j]))
  }

  /** `F.linear(x, w)` without bias: each row of `x` (width `inW`) is mapped by the
      `outW×inW` weight `w`, i.e. `x·wᵀ`. */
  function Linear(x: Matrix, w: Matrix, inW: nat, outW: nat): (y: Matrix)
    requires IsMatrix(x, |x|, inW) && IsMatrix(w, outW, inW)
    ensures IsMatrix(y, |x|, outW)
  {
    seq(|x|, t requires 0 <= t < |x| => seq(outW, o requires 0 <= o < outW => Dot(x[t], w[o])))
  }

  /** A zero vector contributes nothing to an inner product. */
  lemma {:induction false} DotZeroLeft(u: Vector, v: Vector)
    requires |u| == |v| && forall i :: 0 <= i < |u| ==> u[i] == 0
    ensures Dot(u, v) == 0
    decreases |u|
  {
    if |u| > 0 {
      DotZeroLeft(u[1..], v[1..]);
    }
  }

  /** Inner product with a zero vector on the right. */
  lemma {:induction false} DotZeroRight(u: Vector, v: Vector)
    requires |u| == |v| && forall i :: 0 <= i < |v| ==> v[i] == 0
    ensures Dot(u, v) == 0
    decreases |u|
  {
    if |u| > 0 {
      DotZeroRight(u[1..], v[1..]);
    }
  }

  /** The inner product distributes over an entrywise sum on the right. */
  lemma {:induction false} DotAddRight(u: Vector, v: Vector, w: Vector, s: Vector)
    requires |u| == |v| == |w| == |s|
    requires forall i :: 0 <= i < |s| ==> s[i] == v[i] + w[i]
    ensures Dot(u, s) == Dot(u, v) + Dot(u, w)
    decreases |u|
  {
    if |u| > 0 {
      DotAddRight(u[1..], v[1..], w[1..], s[1..]);
    }
  }

  /** A zero left factor gives a zero product, whatever the right factor is:
      the reason a zero-initialised `B` makes `B·A` vanish. */
  lemma ZeroTimesAny(b: Matrix, a: Matrix, n: nat, k: nat, m: nat)
    requires IsMatrix(b, n, k) && IsMatrix(a, k, m) && AllZero(b)
    ensures MatMul(b, a, n, k, m) == Zero(n, m)
  {
    var c := MatMul(b, a, n, k, m);
    forall i | 0 <= i < n
      ensures c[i] == Zero(n, m)[i]
    {
      forall j | 0 <= j < m
        ensures c[i][j] == 0
      {
        DotZeroLeft(b[i], Column(a, j, k));
      }
    }
  }

  /** Projecting by an all-zero weight yields an all-zero result. */
  lemma LinearByZero(x: Matrix, inW: nat, outW: nat)
    requires IsMatrix(x, |x|, inW)
    ensures Linear(x, Zero(outW, inW), inW, outW) == Zero(|x|, outW)
  {
    var y := Linear(x, Zero(outW, inW), inW, outW);
    forall t | 0 <= t < |x|
      ensures y[t] == Zero(|x|, outW)[t]
    {
      forall o | 0 <= o < outW
        ensures y[t][o] == 0
      {
        DotZeroRight(x[t], Zero(outW, inW)[o]);
      }
    }
  }

  /** Adding a zero matrix changes nothing. */
  lemma AddZero(a: Matrix, rows: nat, cols: nat)
    requires IsMatrix(a, rows, cols)
    ensures Add(a, Zero(rows, cols), rows, cols) == a
  {
    var c := Add(a, Zero(rows, cols), rows, cols);
    forall i | 0 <= i < rows
      ensures c[i] == a[i]
    {
    }
  }

  /** `F.linear` is linear in its weight: projecting by `w1 + w2` is the sum of
      the two projections. */
  lemma LinearOfSum(x: Matrix, w1: Matrix, w2: Matrix, inW: nat, outW: nat)
    requires IsMatrix(x, |x|, inW) && IsMatrix(w1, outW, inW) && IsMatrix(w2, outW, inW)
    ensures Linear(x, Add(w1, w2, outW, inW), inW, outW)
         == Add(Linear(x, w1, inW, outW), Linear(x, w2, inW, outW), |x|, outW)
  {
    var s := Add(w1, w2, outW, inW);
    var lhs := Linear(x, s, inW, outW);
    var rhs := Add(Linear(x, w1, inW, outW), Linear(x, w2, inW, outW), |x|, outW);
    forall t | 0 <= t < |x|
      ensures lhs[t] == rhs[t]
    {
      forall o | 0 <= o < outW
        ensures lhs[t][o] == rhs[t][o]
      {
        DotAddRight(x[t], w1[o], w2[o], s[o]);
      }
    }
  }
}

=== FILE: names.dfy ===
/** Parameter and state-dict names, and the two string tests the wrapper applies
    to them: Python's `str.startswith` and the substring operator `in`. */
module Names {

  /** Every adapter parameter name begins with this prefix. */
  const LoraPrefix: string := "lora_"

  /** Parameters of a task head added by the caller begin with this prefix. */
  const FinetuneHeadPrefix: string := "finetune_head_"

  /** Python's `s.startswith(p)`. */
  predicate StartsWith(s: string, p: string)
  {
    |p| <= |s| && s[..|p|] == p
  }

  /** Occurrence of `p` in `s` at position `i`. */
  predicate OccursAt(s: string, p: string, i: int)
  {
    0 <= i && i + |p| <= |s| && s[i..i + |p|] == p
  }

  /** Python's `p in s` for two strings: `p` occurs somewhere in `s`
      (the empty string occurs in every string). */
  predicate Contains(s: string, p: string)
  {
    exists i :: 0 <= i <= |s| && OccursAt(s, p, i)
  }

  /** A string contains each of its prefixes. */
  lemma StartsWithContains(s: string, p: string)
    requires StartsWith(s, p)
    ensures Contains(s, p)
  {
    assert OccursAt(s, p, 0);
  }

  /** A name that contains `p` still contains it once qualified by any prefix,
      which is how `named_parameters` reports a submodule's parameters. */
  lemma ContainsUnderPrefix(q: string, s: string, p: string)
    requires Contains(s, p)
    ensures Contains(q + s, p)
  {
    var i: int :| OccursAt(s, p, i);
    assert OccursAt(s, p, i);
    assert (q + s)[|q| + i..|q| + i + |p|] == s[i..i + |p|];
    assert OccursAt(q + s, p, |q| + i);
  }

  /** A name qualified by a module path `c` starts with the adapter prefix only
      when `c` itself does: the '.' separator never matches a character of "lora_". */
  lemma QualifiedStartsWithLora(c: string, k: string)
    ensures StartsWith(c + "." + k, LoraPrefix) <==> StartsWith(c, LoraPrefix)
  {
    var n := c + "." + k;
    if |c| >= |LoraPrefix| {
      assert n[..|LoraPrefix|] == c[..|LoraPrefix|];
    } else {
      assert n[|c|] == '.';
    }
  }

  /** A string that lacks one character of `p` cannot contain `p`. */
  lemma MissingCharNotContained(s: string, p: string, j: nat)
    requires j < |p|
    requires forall i :: 0 <= i < |s| ==> s[i] != p[j]
    ensures !Contains(s, p)
  {
    forall i | 0 <= i <= |s|
      ensures !OccursAt(s, p, i)
    {
      if i + |p| <= |s| {
        assert s[i..i + |p|][j] == s[i + j];
      }
    }
  }
}

=== FILE: optional.dfy ===
/** The optional value used for every `Optional[...]` argument of the model and
    for the error an operation may end with. */
module Optional {

  datatype Option<+T> = None | Some(value: T)
}

=== FILE: tree.dfy ===
/** `replace_multihead_attention_recursion`: the walk over a model's module tree
    that swaps every self-attention child for a LoRA-adapted one, guarded by a
    check on the state-dict key names. A module's state is abstracted to the
    names of its parameters. */
module ModuleTree {
  import opened Optional
  import opened Names

  /** `SelfAttention` is `RobertaSelfAttention`; `LoraSelfAttention` is its
      subclass, so `isinstance(_, RobertaSelfAttention)` holds of both. */
  datatype Kind = SelfAttention | LoraSelfAttention | Other

  /** A module: its class, the names of the parameters it registers itself (in
      registration order), and its named children. */
  datatype Module = Module(kind: Kind, params: seq<string>, children: seq<Child>)

  datatype Child = Child(name: string, node: Module)

  /** What a freshly constructed `RobertaSelfAttention(config)` looks like; the
      adapted module built from the same configuration extends it. */
  datatype Setup = Setup(template: Module)

  /** The assertion message's two key sets when the integrity check fails. */
  datatype Mismatch = Mismatch(expected: set<string>, found: set<string>)

  /** The result of a walk over a list of children: the (possibly rewritten)
      children, the value of `nr_replaced_modules` afterwards, and the failed
      assertion if the walk stopped at one. */
  datatype Walked = Walked(children: seq<Child>, replaced: nat, error: Option<Mismatch>)

  /** The parameter names `LoraRobertaSelfAttention.__init__` registers. */
  const AdapterParams: seq<string> :=
    ["lora_query_matrix_B", "lora_query_matrix_A", "lora_value_matrix_B", "lora_value_matrix_A"]

  function SizeOf(cs: seq<Child>): nat
  {
    if |cs| == 0 then 0 else 1 + SizeOf(cs[0].node.children) + SizeOf(cs[1..])
  }

  /** Every name of `names` qualified by the child name `p`. */
  function Qualify(p: string, names: seq<string>): (q: seq<string>)
    ensures |q| == |names|
    ensures forall i :: 0 <= i < |names| ==> q[i] == p + "." + names[i]
  {
    seq(|names|, i requires 0 <= i < |names| => p + "." + names[i])
  }

  /** The qualified names `named_parameters` reports below a list of children. */
  function ChildParamList(cs: seq<Child>): seq<string>
    decreases SizeOf(cs)
  {
    if |cs| == 0 then []
    else
      Qualify(cs[0].name, cs[0].node.params + ChildParamList(cs[0].node.children))
      + ChildParamList(cs[1..])
  }

  /** `named_parameters()` of a module, as names, in order. */
  function ParamList(m: Module): (r: seq<string>)
    ensures |m.params| <= |r| && r[..|m.params|] == m.params
    ensures forall j, x :: 0 <= j < |m.children| && x in m.children[j].node.params ==> m.children[j].name + "." + x in r
  {
    ChildrenListed(m.children);
    m.params + ChildParamList(m.children)
  }

  /** `set(m.state_dict().keys())`, parameters only. */
  function Keys(m: Module): set<string>
  {
    set k | k in ParamList(m)
  }

  /** The module `LoraRobertaSelfAttention(r, config)` builds: the base module's
      parameters and children plus the four adapter matrices. Only its key
      names are kept here; its values are `Lora.NewLayer`. */
  function AdaptedModule(setup: Setup): (l: Module)
    ensures l.kind == LoraSelfAttention
    ensures l.children == setup.template.children
    ensures |setup.template.params| <= |l.params| && l.params[..|setup.template.params|] == setup.template.params
    ensures forall k :: k in AdapterParams ==> k in l.params
    ensures forall k :: k in l.params && k !in setup.template.params ==> StartsWith(k, LoraPrefix)
  {
    Module(LoraSelfAttention, setup.template.params + AdapterParams, setup.template.children)
  }

  /** The new module's key set with every name starting with "lora_" dropped. */
  function WithoutAdapters(keys: set<string>): (r: set<string>)
    ensures r <= keys
    ensures forall k :: k in r ==> !StartsWith(k, LoraPrefix)
    ensures forall k :: k in keys && !StartsWith(k, LoraPrefix) ==> k in r
  {
    set k | k in keys && !StartsWith(k, LoraPrefix)
  }

  /** The isinstance test: plain and already-adapted self-attention alike. */
  predicate IsTarget(m: Module)
  {
    m.kind == SelfAttention || m.kind == LoraSelfAttention
  }

  /** The integrity assertion for replacing `prior`. */
  function Passes(prior: Module, setup: Setup): (ok: bool)
    ensures ok ==> forall k :: k in Keys(prior) ==> !StartsWith(k, LoraPrefix)
    ensures (forall k :: k in Keys(setup.template) ==> !StartsWith(k, LoraPrefix)) ==>
      (ok <==> Keys(prior) == Keys(setup.template))
  {
    Keys(prior) == WithoutAdapters(Keys(AdaptedModule(setup)))
  }

  /** The walk over the children of one module, left to right. A target child
      increments the counter, then is checked and swapped for a new adapted
      module (its own children are not visited); any other child is walked
      recursively and stays in place. A failed check stops everything: the
      children not yet visited are left as they were. */
  function Walk(cs: seq<Child>, setup: Setup, count: nat): (w: Walked)
    ensures |w.children| == |cs|
    ensures forall i :: 0 <= i < |cs| ==> w.children[i].name == cs[i].name
    ensures count <= w.replaced
    ensures w.error.Some? ==> w.error.value.expected != w.error.value.found
    decreases SizeOf(cs)
  {
    if |cs| == 0 then Walked([], count, None)
    else
      var c := cs[0];
      if IsTarget(c.node) then
        var n := count + 1;
        if !Passes(c.node, setup) then
          Walked(cs, n, Some(Mismatch(Keys(c.node), WithoutAdapters(Keys(AdaptedModule(setup))))))
        else
          var rest := Walk(cs[1..], setup, n);
          Walked([Child(c.name, AdaptedModule(setup))] + rest.children, rest.replaced, rest.error)
      else
        var sub := Walk(c.node.children, setup, count);
        var c' := Child(c.name, c.node.(children := sub.children));
        if sub.error.Some? then Walked([c'] + cs[1..], sub.replaced, sub.error)
        else
          var rest := Walk(cs[1..], setup, sub.replaced);
          Walked([c'] + rest.children, rest.replaced, rest.error)
  }

  /** Every child keeps its place: a non-target keeps its class and its own
      parameters (only its children may change), and a target is either left
      as it was or is the new adapted module. */
  lemma {:induction false} WalkKeepsPlaces(cs: seq<Child>, setup: Setup, count: nat, i: nat)
    requires i < |cs|
    ensures KeepsPlace(cs[i], Walk(cs, setup, count).children[i], setup)
    decreases |cs|, 1
  {
    if IsTarget(cs[0].node) {
      TargetFirstKeepsPlaces(cs, setup, count, i);
    } else {
      OtherFirstKeepsPlaces(cs, setup, count, i);
    }
  }

  /** What a child may become in place. */
  predicate KeepsPlace(before: Child, after: Child, setup: Setup)
  {
    && (!IsTarget(before.node) ==>
          after.node.kind == before.node.kind && after.node.params == before.node.params)
    && (IsTarget(before.node) ==> after.node == before.node || after.node == AdaptedModule(setup))
  }

  lemma {:induction false} TargetFirstKeepsPlaces(cs: seq<Child>, setup: Setup, count: nat, i: nat)
    requires i < |cs| && IsTarget(cs[0].node)
    ensures KeepsPlace(cs[i], Walk(cs, setup, count).children[i], setup)
    decreases |cs|, 0
  {
    var w := Walk(cs, setup, count);
    var c := cs[0];
    if !Passes(c.node, setup) {
      assert w.children == cs;
    } else {
      var rest := Walk(cs[1..], setup, count + 1);
      assert w.children == [Child(c.name, AdaptedModule(setup))] + rest.children;
      if i > 0 {
        WalkKeepsPlaces(cs[1..], setup, count + 1, i - 1);
        assert w.children[i] == rest.children[i - 1];
      }
    }
  }

  lemma {:induction false} OtherFirstKeepsPlaces(cs: seq<Child>, setup: Setup, count: nat, i: nat)
    requires i < |cs| && !IsTarget(cs[0].node)
    ensures KeepsPlace(cs[i], Walk(cs, setup, count).children[i], setup)
    decreases |cs|, 0
  {
    var w := Walk(cs, setup, count);
    var c := cs[0];
    var sub := Walk(c.node.children, setup, count);
    var c' := Child(c.name, c.node.(children := sub.children));
    if sub.error.Some? {
      assert w.children == [c'] + cs[1..];
    } else {
      var rest := Walk(cs[1..], setup, sub.replaced);
      assert w.children == [c'] + rest.children;
      if i > 0 {
        WalkKeepsPlaces(cs[1..], setup, sub.replaced, i - 1);
        assert w.children[i] == rest.children[i - 1];
      }
    }
  }

  /** `replace_multihead_attention`: reset the counter and walk the model's
      children (the model itself is never a candidate). */
  function Replace(model: Module, setup: Setup): (r: (Module, Walked))
    ensures r.0.kind == model.kind && r.0.params == model.params
    ensures r.0.children == r.1.children
  {
    var w := Walk(model.children, setup, 0);
    (model.(children := w.children), w)
  }

  /** The module reached from `cs` by following child indices `path`, with
      the dotted prefix `named_parameters` puts before its own parameters. */
  function At(cs: seq<Child>, path: seq<nat>): (r: Option<(string, Module)>)
    ensures r.Some? ==> |path| > 0 && path[0] < |cs| && StartsWith(r.value.0, cs[path[0]].name + ".")
    decreases |path|
  {
    if |path| == 0 || path[0] >= |cs| then None
    else
      var c := cs[path[0]];
      if |path| == 1 then Some((c.name + ".", c.node))
      else
        match At(c.node.children, path[1..])
        case None => None
        case Some(found) =>
          assert (c.name + "." + found.0)[..|c.name + "."|] == c.name + ".";
          Some((c.name + "." + found.0, found.1))
  }

  /** The names of child `i`'s subtree appear below `cs` qualified by its name. */
  lemma {:induction false} ChildNamesListed(cs: seq<Child>, i: nat, x: string)
    requires i < |cs|
    requires x in cs[i].node.params + ChildParamList(cs[i].node.children)
    ensures cs[i].name + "." + x in ChildParamList(cs)
    decreases i
  {
    if i > 0 {
      ChildNamesListed(cs[1..], i - 1, x);
    } else {
      var own := cs[0].node.params + ChildParamList(cs[0].node.children);
      var j :| 0 <= j < |own| && own[j] == x;
      assert Qualify(cs[0].name, own)[j] == cs[0].name + "." + x;
    }
  }

  /** Each child's own parameters are listed under the child's name. */
  lemma ChildrenListed(cs: seq<Child>)
    ensures forall j, x :: 0 <= j < |cs| && x in cs[j].node.params ==> cs[j].name + "." + x in ChildParamList(cs)
  {
    forall j, x | 0 <= j < |cs| && x in cs[j].node.params
      ensures cs[j].name + "." + x in ChildParamList(cs)
    {
      ChildNamesListed(cs, j, x);
    }
  }

  /** Every parameter of a module reachable from `cs` is reported by
      `named_parameters` under its path prefix. */
  lemma {:induction false} ReachableParamsListed(cs: seq<Child>, path: seq<nat>, k: string)
    requires At(cs, path).Some? && k in At(cs, path).value.1.params
    ensures At(cs, path).value.0 + k in ChildParamList(cs)
    decreases |path|
  {
    var c := cs[path[0]];
    if |path| == 1 {
      ChildNamesListed(cs, path[0], k);
    } else {
      var found := At(c.node.children, path[1..]).value;
      ReachableParamsListed(c.node.children, path[1..], k);
      ChildNamesListed(cs, path[0], found.0 + k);
      assert c.name + "." + found.0 + k == c.name + "." + (found.0 + k);
    }
  }

  /** The number of targets the walk reaches: targets are counted and not
      entered, other modules are entered. */
  function Targets(cs: seq<Child>): nat
    decreases SizeOf(cs)
  {
    if |cs| == 0 then 0
    else (if IsTarget(cs[0].node) then 1 else Targets(cs[0].node.children)) + Targets(cs[1..])
  }

  /** Every target the walk reaches passes the integrity check. */
  predicate AllPass(cs: seq<Child>, setup: Setup)
    decreases SizeOf(cs)
  {
    |cs| == 0 ||
    ((if IsTarget(cs[0].node) then Passes(cs[0].node, setup) else AllPass(cs[0].node.children, setup))
     && AllPass(cs[1..], setup))
  }

  /** Every target the walk reaches is a freshly built adapted module. */
  predicate AllAdapted(cs: seq<Child>, setup: Setup)
    decreases SizeOf(cs)
  {
    |cs| == 0 ||
    ((if IsTarget(cs[0].node) then cs[0].node == AdaptedModule(setup) else AllAdapted(cs[0].node.children, setup))
     && AllAdapted(cs[1..], setup))
  }

  /** No plain (unadapted) self-attention module is reachable from `cs`. */
  predicate NoPlain(cs: seq<Child>)
    decreases SizeOf(cs)
  {
    |cs| == 0 ||
    (cs[0].node.kind != SelfAttention && NoPlain(cs[0].node.children) && NoPlain(cs[1..]))
  }

  /** The walk completes exactly when every target it reaches passes the check. */
  lemma {:induction false} WalkSucceedsIff(cs: seq<Child>, setup: Setup, count: nat)
    ensures Walk(cs, setup, count).error.None? <==> AllPass(cs, setup)
    decreases SizeOf(cs)
  {
    if |cs| > 0 {
      var c := cs[0];
      if IsTarget(c.node) {
        if Passes(c.node, setup) {
          WalkSucceedsIff(cs[1..], setup, count + 1);
        }
      } else {
        WalkSucceedsIff(c.node.children, setup, count);
        var sub := Walk(c.node.children, setup, count);
        if sub.error.None? {
          WalkSucceedsIff(cs[1..], setup, sub.replaced);
        }
      }
    }
  }

  /** A completed walk adds one to the counter per target reached, swaps every
      such target for the new module, and keeps the number of targets. */
  lemma {:induction false} WalkCompleted(cs: seq<Child>, setup: Setup, count: nat)
    requires Walk(cs, setup, count).error.None?
    ensures var w := Walk(cs, setup, count);
      && w.replaced == count + Targets(cs)
      && AllAdapted(w.children, setup)
      && Targets(w.children) == Targets(cs)
    decreases SizeOf(cs)
  {
    if |cs| > 0 {
      var w := Walk(cs, setup, count);
      var c := cs[0];
      if IsTarget(c.node) {
        var rest := Walk(cs[1..], setup, count + 1);
        WalkCompleted(cs[1..], setup, count + 1);
        assert w.children[1..] == rest.children;
      } else {
        var sub := Walk(c.node.children, setup, count);
        WalkCompleted(c.node.children, setup, count);
        var rest := Walk(cs[1..], setup, sub.replaced);
        WalkCompleted(cs[1..], setup, sub.replaced);
        assert w.children[1..] == rest.children;
      }
    }
  }

  /** Once every reached target is an adapted module, no plain self-attention
      is left on the walk's path, provided the base module template has none. */
  lemma {:induction false} AdaptedLeavesNoPlain(cs: seq<Child>, setup: Setup)
    requires AllAdapted(cs, setup)
    requires NoPlain(setup.template.children)
    ensures NoPlain(cs)
    decreases SizeOf(cs)
  {
    if |cs| > 0 {
      if !IsTarget(cs[0].node) {
        AdaptedLeavesNoPlain(cs[0].node.children, setup);
      }
      AdaptedLeavesNoPlain(cs[1..], setup);
    }
  }

  /** The key names of a module extended by more parameters of its own. */
  lemma KeysOfAdaptedModule(setup: Setup)
    ensures Keys(AdaptedModule(setup)) == Keys(setup.template) + set k | k in AdapterParams
  {
  }

  /** The integrity check, read against the base template: when the template has
      no "lora_"-prefixed key, a module passes exactly when its key set is the
      template's. */
  lemma PassesIff(prior: Module, setup: Setup)
    requires forall k :: k in Keys(setup.template) ==> !StartsWith(k, LoraPrefix)
    ensures Passes(prior, setup) <==> Keys(prior) == Keys(setup.template)
  {
  }

  /** A module holding any "lora_"-prefixed key fails the check: in particular
      an already adapted module, which still satisfies the isinstance test. */
  lemma AdaptedModuleFails(prior: Module, setup: Setup, k: string)
    requires k in Keys(prior) && StartsWith(k, LoraPrefix)
    ensures !Passes(prior, setup)
  {
  }

  /** The walk has no already-adapted guard: if a first walk completed and
      replaced at least one module, a second walk over its result aborts on the
      first adapted module it reaches. */
  lemma SecondWalkFails(cs: seq<Child>, setup: Setup, count: nat, count2: nat)
    requires Walk(cs, setup, count).error.None?
    requires Targets(cs) > 0
    ensures Walk(Walk(cs, setup, count).children, setup, count2).error.Some?
  {
    var first := Walk(cs, setup, count).children;
    WalkCompleted(cs, setup, count);
    AdaptedNeverPasses(setup);
    AdaptedTargetsFail(first, setup);
    WalkSucceedsIff(first, setup, count2);
  }

  /** The new adapted module fails the check against its own template. */
  lemma AdaptedNeverPasses(setup: Setup)
    ensures !Passes(AdaptedModule(setup), setup)
  {
    KeysOfAdaptedModule(setup);
    assert "lora_query_matrix_B" in Keys(AdaptedModule(setup));
    AdaptedModuleFails(AdaptedModule(setup), setup, "lora_query_matrix_B");
  }

  /** Helper for `SecondWalkFails`: a list whose reached targets are all the
      new module, with at least one of them, does not pass. */
  lemma {:induction false} AdaptedTargetsFail(cs: seq<Child>, setup: Setup)
    requires AllAdapted(cs, setup) && Targets(cs) > 0
    requires !Passes(AdaptedModule(setup), setup)
    ensures !AllPass(cs, setup)
    decreases SizeOf(cs)
  {
    if IsTarget(cs[0].node) {
    } else if Targets(cs[0].node.children) > 0 {
      AdaptedTargetsFail(cs[0].node.children, setup);
    } else {
      AdaptedTargetsFail(cs[1..], setup);
    }
  }
}

=== FILE: wrapper.dfy ===
/** `LoraWrapperRobertaHelper.__init__`: replace every self-attention module,
    then apply the trainability policy to every named parameter. Loading the
    pretrained model is outside the model: the loaded module tree is an input. */
module Wrapper {
  import opened Optional
  import opened Names
  import opened ModuleTree
  import opened Freezing

  /** The two exceptions construction can end with. */
  datatype Error =
    | AssertionError(mismatch: Mismatch)
    | UnboundLocalError(variable: string)

  datatype Result<T> = Ok(value: T) | Err(error: Error)

  /** A constructed wrapper: the adapted model, `nr_replaced_modules`, and the
      model's named parameters with their `requires_grad` flags. */
  datatype Wrapped = Wrapped(model: Module, replaced: nat, params: seq<Param>)

  /** Parameters as loaded: every one has `requires_grad` set. */
  function Loaded(names: seq<string>): (ps: seq<Param>)
    ensures |ps| == |names|
    ensures forall i :: 0 <= i < |names| ==> ps[i] == Param(names[i], true)
  {
    seq(|names|, i requires 0 <= i < |names| => Param(names[i], true))
  }

  /** Construction with the freezing method reduced to its loop. */
  function Wrap(model: Module, setup: Setup, flags: Flags): (r: Result<Wrapped>)
    ensures r.Err? ==> r.error.AssertionError?
    ensures r.Ok? ==> |r.value.params| == |ParamList(r.value.model)|
    ensures r.Ok? ==> forall i :: 0 <= i < |r.value.params| ==>
      r.value.params[i].name == ParamList(r.value.model)[i]
    ensures r.Ok? ==> forall i :: 0 <= i < |r.value.params| ==>
      (r.value.params[i].requiresGrad <==> Trainable(flags, ParamList(r.value.model)[i]))
  {
    var (tree, w) := Replace(model, setup);
    if w.error.Some? then Err(AssertionError(w.error.value))
    else Ok(Wrapped(tree, w.replaced, Frozen(flags, Loaded(ParamList(tree)))))
  }

  /** Construction as written: the freezing method goes on, after its loop,
      into a loader body that reads the local `lora_parameters` before anything
      assigns it. */
  function WrapAsWritten(model: Module, setup: Setup, flags: Flags): (r: Result<Wrapped>)
    ensures r.Err?
    ensures r.error.UnboundLocalError? <==> Walk(model.children, setup, 0).error.None?
  {
    var (tree, w) := Replace(model, setup);
    if w.error.Some? then Err(AssertionError(w.error.value))
    else Err(UnboundLocalError("lora_parameters"))
  }

  /** As written, no call to the constructor returns a wrapper: it fails either
      at the integrity assertion or, once replacement succeeds, at the stray
      loader code in the freezing method. */
  lemma WrapAsWrittenNeverSucceeds(model: Module, setup: Setup, flags: Flags)
    ensures WrapAsWritten(model, setup, flags).Err?
    ensures AllPass(model.children, setup) ==>
      WrapAsWritten(model, setup, flags) == Err(UnboundLocalError("lora_parameters"))
  {
    WalkSucceedsIff(model.children, setup, 0);
  }

  /** Construction succeeds exactly when every self-attention module the walk
      reaches passes the integrity check. */
  lemma WrapSucceedsIff(model: Module, setup: Setup, flags: Flags)
    ensures Wrap(model, setup, flags).Ok? <==> AllPass(model.children, setup)
  {
    WalkSucceedsIff(model.children, setup, 0);
  }

  /** A constructed wrapper has replaced and counted every self-attention
      module the walk reaches, and none of the plain ones is left on its path. */
  lemma WrapReplacesAll(model: Module, setup: Setup, flags: Flags)
    requires Wrap(model, setup, flags).Ok?
    requires NoPlain(setup.template.children)
    ensures var w := Wrap(model, setup, flags).value;
      && w.replaced == Targets(model.children)
      && AllAdapted(w.model.children, setup)
      && NoPlain(w.model.children)
  {
    WalkCompleted(model.children, setup, 0);
    AdaptedLeavesNoPlain(Walk(model.children, setup, 0).children, setup);
  }

  /** A listed name containing "lora_" is trainable in a constructed wrapper. */
  lemma ListedAdapterTrainable(model: Module, setup: Setup, flags: Flags, name: string)
    requires Wrap(model, setup, flags).Ok?
    requires name in ParamList(Wrap(model, setup, flags).value.model) && Contains(name, LoraPrefix)
    ensures Param(name, true) in Wrap(model, setup, flags).value.params
  {
    var w := Wrap(model, setup, flags).value;
    var j :| 0 <= j < |ParamList(w.model)| && ParamList(w.model)[j] == name;
    assert w.params[j] == Param(name, true);
  }

  /** Every adapter matrix anywhere in a constructed wrapper is listed under its
      full dotted name and is trainable, whatever the flags; that full name does
      not itself start with "lora_" unless the first submodule's name does. */
  lemma WrappedAdaptersTrainable(model: Module, setup: Setup, flags: Flags, path: seq<nat>, k: string)
    requires Wrap(model, setup, flags).Ok?
    requires var cs := Wrap(model, setup, flags).value.model.children;
      At(cs, path).Some? && k in At(cs, path).value.1.params
    requires StartsWith(k, LoraPrefix)
    ensures var w := Wrap(model, setup, flags).value;
      var prefix := At(w.model.children, path).value.0;
      && Param(prefix + k, true) in w.params
      && (!StartsWith(w.model.children[path[0]].name, LoraPrefix) ==> !StartsWith(prefix + k, LoraPrefix))
  {
    var w := Wrap(model, setup, flags).value;
    var cs := w.model.children;
    var prefix := At(cs, path).value.0;
    ReachableParamsListed(cs, path, k);
    StartsWithContains(k, LoraPrefix);
    ContainsUnderPrefix(prefix, k, LoraPrefix);
    ListedAdapterTrainable(model, setup, flags, prefix + k);
    PrefixedNameStart(cs, path, k);
  }

  /** A dotted name starts with "lora_" only if its first component does. */
  lemma PrefixedNameStart(cs: seq<Child>, path: seq<nat>, k: string)
    requires At(cs, path).Some?
    ensures !StartsWith(cs[path[0]].name, LoraPrefix) ==> !StartsWith(At(cs, path).value.0 + k, LoraPrefix)
  {
    var name := At(cs, path).value.0 + k;
    var c := cs[path[0]].name;
    assert name[..|c + "."|] == c + ".";
    assert name == c + "." + name[|c| + 1..];
    QualifiedStartsWithLora(c, name[|c| + 1..]);
  }
}
